=== FILE: README.md ===
# Scholar alert fetcher — a Dafny model

A model of the core of `scholar_fetcher.py`, a service that reads Google
Scholar alert emails, extracts one publication record from each, and keeps
the records in an SQLite database without duplicates. Two parts are
modelled:

- **Alert parsing** (`ScholarMonitor.parse_scholar_email`): finding the
  first `text/html` part, the title anchor `a.gse_alrt_title`, the article
  link inside its `url=` parameter, the byline `Authors - Venue, Year`
  (split at the first ` - `, authors split at commas and stripped, venue and
  year read by `(.*?),\s*(\d{4})`), and the first link to a
  `scholar.google.com/citations` profile, percent-decoded.
- **The store** (`ScholarMonitor.store_publication` over the tables that
  `setup_database` creates): an insertion writes a publication row and a
  processed-email row and commits, or writes nothing. Duplicates are
  recognised by the unique `email_id` and the unique
  `(title, ','.join(authors), year)`.

Modules, one file each:

| file | module | contents |
|---|---|---|
| wrappers.dfy | Wrappers | `Option`, `Result` |
| text.dfy | Text | Python `strip`, `split`, `join`, `find`, `in`, `split(sep, 1)` |
| percent.dfy | Percent | `urllib.parse.unquote`, and an encoder it inverts |
| patterns.dfy | Patterns | the two regular expressions, written as the `re` engine runs them |
| alert.dfy | Alert | messages, pages, `Publication`, the parser |
| render.dfy | AlertRender | the alert email for a publication; parsing it gives the publication back |
| store.dfy | Store | the two tables, insertion, the invariant insertion keeps |

The clock is a parameter: `currentYear` is the default year the parser
uses when no year is recognised, `now` is the notification date it
records, and `processedAt` is the processing date the store writes. The
Message-ID header, which can be missing, is an `Option`, and so is the
`email_id` column. The parser's failures, all of which the code logs and
turns into `None`, are kept apart as `NoHtmlContent`, `NoTitle` and
`DecodeError`; the storage outcomes, which the code only logs, are
`Inserted`, `AlreadyExists` and `StorageError`.

The code accepts an empty title: whatever text the title anchor has
becomes the title, and nothing checks that it is non-empty. The model
does the same.

SQLite lets a `TEXT PRIMARY KEY` column hold NULL, and NULLs never collide
in a unique column. A publication without a Message-ID is therefore
recognised as a duplicate by its `(title, authors, year)` key alone, and
its processed-email row always goes in (`Store.SameId`,
`Store.NullIdDedupByKeyOnly`).

## Model

`Percent.Unquote`, `Text.Join`, `Text.Split`, `Patterns.DigitsValue`
(with `Patterns.YearValue`, `int(...)` at scholar_fetcher.py:155) and
`Store.RowOf` (the VALUES tuple at scholar_fetcher.py:189-198) are
reference definitions of the library calls the code makes; the rows below
that mention them state their properties.

| member | source | states |
|---|---|---|
| Text.Strip | scholar_fetcher.py:149 | the stripped text is no longer than the input, has no whitespace at either end, and is empty exactly when the input is all whitespace |
| Text.StripUnique | scholar_fetcher.py:149 | whitespace, then a trimmed middle, then whitespace strips to exactly that middle |
| Text.StripIdempotent | scholar_fetcher.py:149 | stripping a stripped name changes nothing |
| Text.StripKeepsAbsent | scholar_fetcher.py:149 | stripping introduces no character that was not there |
| Text.Split | scholar_fetcher.py:149 | splitting at commas gives one more piece than there are commas, no piece holds a comma, and joining the pieces with commas restores the text |
| Text.SplitJoin | scholar_fetcher.py:149 | splitting at the separator undoes joining with it when no piece holds the separator |
| Text.IndexOf | scholar_fetcher.py:147 | the position found is an occurrence with none before it; nothing is found exactly when there is no occurrence |
| Text.SplitOnce | scholar_fetcher.py:147-148 | no split exactly when ` - ` does not occur; otherwise the text is the part before, the separator and the part after, and the part before holds no occurrence |
| Text.SplitOnceFindsSplit | scholar_fetcher.py:148 | any split of the text as `a`, ` - `, `v` with no ` - ` inside `a` is the split `split(' - ', 1)` returns |
| Text.SplitOnceAt | scholar_fetcher.py:148 | the split happens at the first occurrence |
| Percent.UnquoteLiteralPrefix | scholar_fetcher.py:136 | text before the first `%` is copied unchanged, `+` included |
| Percent.UnquoteWithoutPercent | scholar_fetcher.py:136 | a link without `%` decodes to itself |
| Percent.UnquoteQuote | scholar_fetcher.py:136 | decoding the percent-encoding of an ASCII string gives the string back |
| Percent.UnquoteEncodedUrl | scholar_fetcher.py:136 | an encoded `scheme%3A%2F%2Fhost%2Fpath` decodes to `scheme://host/path`, e.g. `https%3A%2F%2Fexample.org%2Fpaper` to `https://example.org/paper` |
| Patterns.UrlParam | scholar_fetcher.py:134-135 | no match exactly when no `url=` is followed by a character other than `&`; a match is the whole non-empty run after the leftmost such `url=`, stopping before `&` |
| Patterns.UrlParamAfter | scholar_fetcher.py:134-135 | in `base` + `url=` + value + `&...`, with no `=` in the base, the captured value is exactly `value` |
| Patterns.YearAtIsRegex | scholar_fetcher.py:152 | reading `\s*` as the whole whitespace run finds a year after a comma exactly when some backtracking of `\s*` does |
| Patterns.MatchVenueYear | scholar_fetcher.py:152-155 | no match exactly when no comma before a single line is followed by optional whitespace and four digits; a match takes the earliest such comma, strips the text before it as venue (trimmed, one line) and reads the year, between 0 and 9999 |
| Patterns.MatchVenueYearAt | scholar_fetcher.py:152-155 | the earliest matching comma determines venue and year |
| Patterns.MatchVenueYearFormatted | scholar_fetcher.py:152-155 | `venue, YYYY` reads back as that venue and year for a trimmed venue without comma or newline |
| Alert.First | scholar_fetcher.py:110-113 | the index found is the first element satisfying the test; none is found exactly when no element satisfies it |
| Alert.FirstAt | scholar_fetcher.py:126 | the first element satisfying the test is the one found |
| Alert.HtmlContent | scholar_fetcher.py:107-120 | with no `text/html` part the message has no HTML content; otherwise the first `text/html` part decides: undecodable gives `DecodeError`, empty text gives no HTML content, non-empty text is the HTML content with its page |
| Alert.SplitAuthors | scholar_fetcher.py:149 | one author per comma plus one, each the stripped piece between commas |
| Alert.ParseByline | scholar_fetcher.py:144-155 | no authors, venue or year are recognised exactly when the text has no ` - `; when the text is `a - v` split at its first ` - `, the authors are the stripped comma-pieces of `a` and venue and year are what `(.*?),\s*(\d{4})` reads from `v`, later ` - ` staying in `v`; without a venue the year stays the current year; a recognised year lies in 0..9999 |
| Alert.ArticleUrl | scholar_fetcher.py:132-136 | no article link exactly when the title anchor has no `href` or the `href` has no `url=` match; otherwise the link is the percent-decoded value captured at the leftmost match |
| Alert.ProfileUrl | scholar_fetcher.py:157-161 | no profile link exactly when no anchor links to a citations page; otherwise the decoded `href` of the first one |
| Alert.PageByline | scholar_fetcher.py:138-155 | a page without a byline `div` yields no authors, no venue and the current year; otherwise the first byline `div`'s text is read as a byline |
| Alert.ParseAlert | scholar_fetcher.py:104-176 | failures of the HTML lookup are passed on; with HTML, a record comes out exactly when the page has a title anchor, so a missing byline, venue, year or link is never a failure; a record takes title and article link from the first title anchor, authors, venue and year from the page's byline, the profile link from the page, the Message-ID and the notification time |
| AlertRender.AuthorsRoundTrip | scholar_fetcher.py:149 | `A, B, C` splits and strips back to the names `A`, `B`, `C` |
| AlertRender.SeparatorFirstAt | scholar_fetcher.py:147-148 | the byline splits at the separator after the authors when their text completes no earlier ` - ` |
| AlertRender.BylineRoundTrip | scholar_fetcher.py:144-155 | the byline printed for authors, venue and year reads back as those authors, venue and year |
| AlertRender.BylineExample | scholar_fetcher.py:144-155 | `A. Smith, B. Lee - Journal of Y, 2023` reads as authors `A. Smith` and `B. Lee`, venue `Journal of Y`, year 2023 |
| AlertRender.TitleLinkRoundTrip | scholar_fetcher.py:132-136 | a redirect link carrying the encoded article URL in `url=` yields that URL |
| AlertRender.EncodedArticleUrl | scholar_fetcher.py:132-136 | a title link whose `url=` parameter holds `scheme%3A%2F%2Fhost%2Fpath` yields the article link `scheme://host/path`, e.g. `url=https%3A%2F%2Fexample.org%2Fpaper` yields `https://example.org/paper` |
| AlertRender.TitleLinkNotProfile | scholar_fetcher.py:159 | such a redirect link is not taken for a profile link |
| AlertRender.RenderedByline | scholar_fetcher.py:138-155 | the rendered page yields the publication's authors, venue and year; a venue-less byline is printed `A - -`, whose stripped text still holds ` - ` |
| AlertRender.RenderedTextsTrimmed | scholar_fetcher.py:131-146 | every element text of the rendered page has no whitespace at either end, as `get_text(strip=True)` returns it, so the round trips run over pages a real alert can have |
| AlertRender.RenderedProfile | scholar_fetcher.py:157-161 | the rendered page yields the publication's profile link |
| AlertRender.ParseRendered | scholar_fetcher.py:104-172 | parsing the alert rendered for a publication in `Renderable` (a trimmed title, stripped comma-free names other than the single empty name, trimmed one-line venue, ASCII article link, profile link without `%`) gives that publication back |
| Store.Insert | scholar_fetcher.py:178-214 | a publication is inserted exactly when nothing fails and neither insert violates a constraint; then exactly one row is appended to each table and nothing else changes; otherwise both tables are unchanged; a duplicate report means a constraint was violated; a failing first statement is always a storage error; a constraint violated by a statement that runs is reported as a duplicate even when a later statement would have failed, since the failure is never reached |
| Store.EmptyValid | scholar_fetcher.py:63-91 | the freshly created tables satisfy the store invariant |
| Store.InsertPreservesValid | scholar_fetcher.py:68-88 | every insertion, whatever fails, keeps both unique keys unique and each processed-email row beside its publication |
| Store.ProcessedIdsArePublished | scholar_fetcher.py:184-205 | in a valid store the non-null processed ids are exactly the non-null publication ids |
| Store.MarkerConflictIsPublicationConflict | scholar_fetcher.py:200-203 | in a valid store a processed-email conflict implies a publication conflict, so the second insert never reports a duplicate the first missed |
| Store.InsertedIffNew | scholar_fetcher.py:184-210 | in a valid store a publication goes in exactly when nothing fails, its `(title, authors, year)` is new and its non-null Message-ID is new |
| Store.ReinsertIsNoOp | scholar_fetcher.py:184-210 | storing a publication again after it was stored or rejected as duplicate leaves the store unchanged and is never an insertion; with no failure it is reported as duplicate |
| Store.SameKeyIsDuplicate | scholar_fetcher.py:79 | a second publication with the same title, joined authors and year is rejected as duplicate whatever its Message-ID |
| Store.NullIdDedupByKeyOnly | scholar_fetcher.py:78-85 | a publication without Message-ID goes in exactly when its `(title, authors, year)` key is new |
| Store.JoinedAuthorsCollide | scholar_fetcher.py:191 | author lists are compared by their comma-join, so `["x,y"]` and `["x", "y"]` collide |

## Left out

- AlertRender.ParseRendered: the round trip covers the publications in `Renderable`, not every record the parser can produce. Author names such as `- b` (from the byline `a,- b - V, 2020`) print back as a list holding an earlier ` - `, a profile link holding `%` (decoded from `%2525`) is decoded once more, a non-ASCII article link has no encoding in the model's encoder, and a title with whitespace at either end or the single empty author name cannot come from stripped element text; for these the parser does not read the rendered alert back unchanged.

- Reading mail: the IMAP connection, search, fetch, flagging and logout (`connect_to_email`, `process_new_alerts`, scholar_fetcher.py:93-102 and 216-248) are network I/O. Note that the code marks a message read once it parses, even when storing the record fails.
- The polling loop and the command-line entry point (scholar_fetcher.py:250-288): a timer around the two modelled operations.
- Logging (scholar_fetcher.py:40-61 and every `logger` call): the model returns the failure or outcome that decides which message is logged.
- MIME parsing and transfer decoding: a message is given as its parts in `walk()` order, each payload either decoded text or undecodable.
- HTML parsing: a page is given as its `a` and `div` elements in document order, each with the text `get_text(strip=True)` produces. Nesting of elements is not modelled.
- Alert.ParseAlert: the only exception the catch-all handler (scholar_fetcher.py:174-176) can meet in the modelled steps is the UTF-8 decoding error, modelled as `DecodeError`; exceptions inside the HTML or MIME libraries are not modelled.
- Percent.Unquote: escapes of bytes from 0x80 up, which `unquote` collects into UTF-8 sequences, are kept as written instead of decoded; escapes of ASCII bytes, malformed escapes and `+` are modelled exactly.
- Patterns.MatchVenueYear: `\d` is modelled as the ASCII digits; Python's `re` also accepts other Unicode decimal digits, which `int` converts.
- Store.Insert: a failure of `sqlite3.connect` (scholar_fetcher.py:180, outside the `try`) is not modelled; the autoincrement `id` column and the ISO text form of the timestamps are left out; the `NOT NULL` constraints cannot fail because the parser never produces `None` for those fields.
- Store.EmptyValid: `setup_database` on an existing database (`CREATE TABLE IF NOT EXISTS`) keeps the tables as they are; the model starts from the freshly created, empty tables.

=== FILE: alert.dfy ===
/** Extraction of one publication record from one alert email
    (`ScholarMonitor.parse_scholar_email`). The MIME structure and the parsed
    HTML arrive already decoded: a message is its parts in walk order, and a
    document is its `a` and `div` elements in document order, each with the
    text `get_text(strip=True)` gives. The clock is passed in. */
module Alert {
  import opened Wrappers
  import opened Text
  import opened Percent
  import opened Patterns

  /** A clock reading, opaque to the model. */
  type Timestamp = int

  /** An HTML element the parser looks at. */
  datatype Element =
    | Anchor(classes: seq<string>, href: Option<string>, text: string)
    | Div(style: Option<string>, text: string)

  /** The elements of a parsed page, in document order. */
  type Document = seq<Element>

  /** A part's payload after transfer decoding: either its text (and the
      page parsed from it) or a failure to decode the bytes as UTF-8. */
  datatype Payload = Undecodable | Decoded(html: string, doc: Document)

  datatype Part = Part(contentType: string, payload: Payload)

  /** A single-part message is its own only part; a multipart message lists
      its leaves in `walk()` order (its multipart containers are never
      `text/html`, so they are left out). */
  datatype Body = SinglePart(part: Part) | Multipart(walk: seq<Part>)

  /** `messageId` is the `Message-ID` header, `None` when it is missing. */
  datatype Message = Message(body: Body, messageId: Option<string>)

  /** `ScholarPublication`. */
  datatype Publication = Publication(
    title: string,
    authors: seq<string>,
    venue: Option<string>,
    year: int,
    url: Option<string>,
    scholarUrl: Option<string>,
    notificationDate: Timestamp,
    emailId: Option<string>)

  /** Why no record came out; each is logged under its own message. */
  datatype ParseFailure =
    | NoHtmlContent   // no `text/html` part, or it is empty
    | NoTitle         // no `a.gse_alrt_title` anchor
    | DecodeError     // the `text/html` payload is not valid UTF-8

  const HtmlType := "text/html"
  const TitleClass := "gse_alrt_title"
  const BylineColor := "#006621"
  const ProfileMarker := "scholar.google.com/citations"
  const Separator := " - "

  /** `xs[i]` is the first element satisfying `p`. */
  predicate IsFirst<T>(xs: seq<T>, p: T -> bool, i: int) {
    0 <= i < |xs| && p(xs[i]) && forall j :: 0 <= j < i ==> !p(xs[j])
  }

  /** The index of the first element satisfying `p`, as `find` and
      `walk()` + `break` report it. */
  function First<T>(xs: seq<T>, p: T -> bool): (r: Option<nat>)
    ensures r.Some? ==> IsFirst(xs, p, r.value)
    ensures r.None? <==> forall j :: 0 <= j < |xs| ==> !p(xs[j])
  {
    if xs == [] then None
    else if p(xs[0]) then Some(0)
    else match First(xs[1..], p)
      case None => None
      case Some(i) => Some(i + 1)
  }

  /** `First` finds exactly the first element satisfying `p`. */
  lemma FirstAt<T>(xs: seq<T>, p: T -> bool, i: int)
    requires IsFirst(xs, p, i)
    ensures First(xs, p) == Some(i)
  {
    var r := First(xs, p);
    assert p(xs[i]);
    assert r.Some?;
  }

  /** Whatever index is the first satisfying `p` is the one `First` finds. */
  lemma FirstIsUnique<T>(xs: seq<T>, p: T -> bool)
    ensures forall i :: IsFirst(xs, p, i) ==> First(xs, p) == Some(i)
  {
    forall i | IsFirst(xs, p, i)
      ensures First(xs, p) == Some(i)
    {
      FirstAt(xs, p, i);
    }
  }

  function Parts(b: Body): seq<Part> {
    match b
    case SinglePart(p) => [p]
    case Multipart(ps) => ps
  }

  predicate IsHtmlPart(p: Part) {
    p.contentType == HtmlType
  }

  /** `soup.find('a', class_='gse_alrt_title')`. */
  predicate IsTitleAnchor(e: Element) {
    e.Anchor? && TitleClass in e.classes
  }

  /** `soup.find('div', style=lambda x: x and '#006621' in x)`. */
  predicate IsByline(e: Element) {
    e.Div? && e.style.Some? && Contains(e.style.value, BylineColor)
  }

  /** `soup.find_all('a', href=lambda x: x and 'scholar.google.com/citations' in x)`. */
  predicate IsProfileLink(e: Element) {
    e.Anchor? && e.href.Some? && Contains(e.href.value, ProfileMarker)
  }

  /** The HTML text and page of the message: those of the first `text/html`
      part, provided it decodes and is not empty. */
  function HtmlContent(m: Message): (r: Result<(string, Document), ParseFailure>)
    ensures (forall i :: 0 <= i < |Parts(m.body)| ==> !IsHtmlPart(Parts(m.body)[i]))
            ==> r == Failure(NoHtmlContent)
    ensures r.Success? ==> r.value.0 != []
    ensures r.Success? ==>
              exists i :: IsFirst(Parts(m.body), IsHtmlPart, i) && Parts(m.body)[i].payload == Decoded(r.value.0, r.value.1)
    ensures r.Failure? ==> r.error != NoTitle
    ensures forall i :: IsFirst(Parts(m.body), IsHtmlPart, i) ==>
              match Parts(m.body)[i].payload
              case Undecodable => r == Failure(DecodeError)
              case Decoded(html, doc) => r == (if html == [] then Failure(NoHtmlContent) else Success((html, doc)))
  {
    var parts := Parts(m.body);
    FirstIsUnique(parts, IsHtmlPart);
    match First(parts, IsHtmlPart)
    case None => Failure(NoHtmlContent)
    case Some(i) =>
      match parts[i].payload
      case Undecodable => Failure(DecodeError)
      case Decoded(html, doc) =>
        if html == [] then Failure(NoHtmlContent) else Success((html, doc))
  }

  /** What the byline yields: the authors, and the venue and year when recognised. */
  datatype Byline = Byline(authors: seq<string>, venue: Option<string>, year: int)

  /** What the parser records when no byline is found or it has no ` - `. */
  function NoByline(currentYear: int): Byline {
    Byline([], None, currentYear)
  }

  /** `[author.strip() for author in authors_part.split(',')]`. */
  function SplitAuthors(a: string): (r: seq<string>)
    ensures |r| == Count(a, ',') + 1
    ensures forall i :: 0 <= i < |r| ==> r[i] == Strip(Split(a, ',')[i])
  {
    var pieces := Split(a, ',');
    seq(|pieces|, i requires 0 <= i < |pieces| => Strip(pieces[i]))
  }

  /** Reads the byline text `Authors - Venue, Year`. Without ` - ` nothing
      is recognised; otherwise the authors come from the text before the first
      ` - ` and venue and year, when the rest starts with `venue, YYYY`, from
      the rest. The year stays `currentYear` when no venue is recognised. */
  function ParseByline(text: string, currentYear: int): (b: Byline)
    ensures (forall j :: !OccursAt(text, Separator, j)) <==> b == NoByline(currentYear)
    ensures b.venue.None? ==> b.year == currentYear
    ensures b.venue.Some? ==> 0 <= b.year <= 9999
    ensures forall a, v :: SplitsAt(text, Separator, a, v) ==>
              && b.authors == SplitAuthors(a)
              && (MatchVenueYear(v).None? ==> b.venue.None? && b.year == currentYear)
              && (MatchVenueYear(v).Some? ==> b.venue == Some(MatchVenueYear(v).value.0) && b.year == MatchVenueYear(v).value.1)
  {
    SplitOnceFindsSplit(text, Separator);
    match SplitOnce(text, Separator)
    case None => NoByline(currentYear)
    case Some((authorsPart, venuePart)) =>
      var authors := SplitAuthors(authorsPart);
      match MatchVenueYear(venuePart)
      case None => Byline(authors, None, currentYear)
      case Some((venue, year)) => Byline(authors, Some(venue), year)
  }

  /** The article link: the percent-decoded `url=` parameter of the title
      link, absent when the anchor has no `href` or the parameter is missing. */
  function ArticleUrl(href: Option<string>): (r: Option<string>)
    ensures href.None? ==> r.None?
    ensures href.Some? ==> (r.None? <==> forall i :: !UrlParamAt(href.value, i))
    ensures href.Some? && r.Some? ==>
              exists i, v :: LeftmostUrlParam(href.value, i) && CapturedAt(href.value, i, v) && r.value == Unquote(v)
  {
    match href
    case None => None
    case Some(h) =>
      match UrlParam(h)
      case None => None
      case Some(v) => Some(Unquote(v))
  }

  /** The scholar profile link: the percent-decoded `href` of the first
      anchor, in document order, that links to a citations page. */
  function ProfileUrl(doc: Document): (r: Option<string>)
    ensures r.None? <==> forall i :: 0 <= i < |doc| ==> !IsProfileLink(doc[i])
    ensures r.Some? ==> exists i :: IsFirst(doc, IsProfileLink, i) && r.value == Unquote(doc[i].href.value)
  {
    match First(doc, IsProfileLink)
    case None => None
    case Some(i) => Some(Unquote(doc[i].href.value))
  }

  /** The byline of the page: that of its first byline `div`, or none. */
  function PageByline(doc: Document, currentYear: int): (b: Byline)
    ensures (forall i :: 0 <= i < |doc| ==> !IsByline(doc[i])) ==> b == NoByline(currentYear)
    ensures b.venue.None? ==> b.year == currentYear
    ensures forall i :: IsFirst(doc, IsByline, i) ==> b == ParseByline(doc[i].text, currentYear)
  {
    FirstIsUnique(doc, IsByline);
    match First(doc, IsByline)
    case None => NoByline(currentYear)
    case Some(i) => ParseByline(doc[i].text, currentYear)
  }

  /** `parse_scholar_email`: at most one record per message. It fails only
      when there is no usable HTML part or no title anchor; a missing byline,
      venue, year or link leaves the field at its default and is not a failure. */
  function ParseAlert(m: Message, currentYear: int, now: Timestamp): (r: Result<Publication, ParseFailure>)
    ensures HtmlContent(m).Failure? ==> r == Failure(HtmlContent(m).error)
    ensures HtmlContent(m).Success? ==>
              (r == Failure(NoTitle) <==>
               forall i :: 0 <= i < |HtmlContent(m).value.1| ==> !IsTitleAnchor(HtmlContent(m).value.1[i]))
    ensures r.Success? ==> HtmlContent(m).Success?
    ensures r.Success? ==>
              var doc := HtmlContent(m).value.1;
              exists i :: IsFirst(doc, IsTitleAnchor, i) && r.value.title == doc[i].text && r.value.url == ArticleUrl(doc[i].href)
    ensures r.Success? ==> r.value.emailId == m.messageId && r.value.notificationDate == now
    ensures r.Success? ==> (r.value.venue.None? ==> r.value.year == currentYear)
    ensures r.Success? ==> r.value.scholarUrl == ProfileUrl(HtmlContent(m).value.1)
    ensures HtmlContent(m).Success? ==>
              (r.Success? <==> exists i :: 0 <= i < |HtmlContent(m).value.1| && IsTitleAnchor(HtmlContent(m).value.1[i]))
    ensures r.Success? ==>
              var b := PageByline(HtmlContent(m).value.1, currentYear);
              r.value.authors == b.authors && r.value.venue == b.venue && r.value.year == b.year
  {
    match HtmlContent(m)
    case Failure(e) => Failure(e)
    case Success((_, doc)) =>
      match First(doc, IsTitleAnchor)
      case None => Failure(NoTitle)
      case Some(t) =>
        var byline := PageByline(doc, currentYear);
        Success(Publication(
          doc[t].text,
          byline.authors,
          byline.venue,
          byline.year,
          ArticleUrl(doc[t].href),
          ProfileUrl(doc),
          now,
          m.messageId))
  }
}

=== FILE: patterns.dfy ===
/** The two regular expressions the alert parser applies, written out as the
    Python `re` engine runs them:
      - `re.search(r'url=([^&]+)', href)` on the title link, and
      - `re.match(r'(.*?),\s*(\d{4})', venue_part)` on the byline's venue part. */
module Patterns {
  import opened Wrappers
  import opened Text

  // ---------------------------------------------------------------------
  // url=([^&]+)
  // ---------------------------------------------------------------------

  /** A match of `url=([^&]+)` starts at `i`: the literal `url=` followed by
      at least one character other than `&`. */
  predicate UrlParamAt(s: string, i: int) {
    OccursAt(s, "url=", i) && i + 4 < |s| && s[i + 4] != '&'
  }

  /** `re.search` reports the leftmost starting position that matches. */
  predicate LeftmostUrlParam(s: string, i: int) {
    UrlParamAt(s, i) && forall j :: 0 <= j < i ==> !UrlParamAt(s, j)
  }

  /** `v` is what the greedy group `([^&]+)` captures for a match at `i`:
      the whole run of non-`&` characters after `url=`. */
  predicate CapturedAt(s: string, i: int, v: string) {
    && 0 <= i
    && i + 4 + |v| <= |s|
    && s[i + 4..i + 4 + |v|] == v
    && '&' !in v
    && (i + 4 + |v| == |s| || s[i + 4 + |v|] == '&')
  }

  /** End of the run of non-`&` characters starting at `from`. */
  function ValueEnd(s: string, from: nat): (e: nat)
    requires from <= |s|
    ensures from <= e <= |s|
    ensures forall k :: from <= k < e ==> s[k] != '&'
    ensures e == |s| || s[e] == '&'
    decreases |s| - from
  {
    if from == |s| || s[from] == '&' then from else ValueEnd(s, from + 1)
  }

  /** The first match start at or after `from`. */
  function UrlParamFrom(s: string, from: nat): (r: Option<nat>)
    requires from <= |s|
    ensures r.Some? ==> from <= r.value && UrlParamAt(s, r.value)
    ensures r.Some? ==> forall j :: from <= j < r.value ==> !UrlParamAt(s, j)
    ensures r.None? ==> forall j :: from <= j ==> !UrlParamAt(s, j)
    decreases |s| - from
  {
    if UrlParamAt(s, from) then Some(from)
    else if from == |s| then None
    else UrlParamFrom(s, from + 1)
  }

  /** Group 1 of `re.search(r'url=([^&]+)', s)`, or `None` when it finds nothing. */
  function UrlParam(s: string): (r: Option<string>)
    ensures r.None? <==> forall i :: !UrlParamAt(s, i)
    ensures r.Some? ==> r.value != [] && '&' !in r.value
    ensures r.Some? ==> exists i :: LeftmostUrlParam(s, i) && CapturedAt(s, i, r.value)
  {
    match UrlParamFrom(s, 0)
    case None => None
    case Some(i) =>
      var v := s[i + 4..ValueEnd(s, i + 4)];
      assert LeftmostUrlParam(s, i) && CapturedAt(s, i, v);
      Some(v)
  }

  lemma {:induction false} ValueEndAt(s: string, from: nat, e: nat)
    requires from <= e <= |s|
    requires forall k :: from <= k < e ==> s[k] != '&'
    requires e == |s| || s[e] == '&'
    ensures ValueEnd(s, from) == e
    decreases e - from
  {
    if from < e {
      ValueEndAt(s, from + 1, e);
    }
  }

  lemma UrlParamFromLeftmost(s: string, i: nat)
    requires LeftmostUrlParam(s, i)
    ensures UrlParamFrom(s, 0) == Some(i)
  {
  }

  /** A link whose only `url=` parameter is the one appended after a
      `base` free of `=` yields exactly that parameter's value. */
  lemma UrlParamAfter(base: string, value: string, rest: string)
    requires '=' !in base
    requires value != [] && '&' !in value
    requires rest == [] || rest[0] == '&'
    ensures UrlParam(base + "url=" + value + rest) == Some(value)
  {
    var s := base + "url=" + value + rest;
    var n := |base|;
    assert s[n..n + 4] == "url=";
    assert s[n + 4] == value[0];
    forall j | 0 <= j < n
      ensures !UrlParamAt(s, j)
    {
      assert s[j + 3] == s[j..j + 4][3];
      assert j + 3 >= n ==> s[j + 3] == "url="[j + 3 - n];
      assert j + 3 < n ==> s[j + 3] == base[j + 3];
    }
    assert LeftmostUrlParam(s, n);
    UrlParamFromLeftmost(s, n);
    var e := n + 4 + |value|;
    assert s[n + 4..e] == value;
    ValueEndAt(s, n + 4, e);
  }

  // ---------------------------------------------------------------------
  // (.*?),\s*(\d{4})
  // ---------------------------------------------------------------------

  /** What `\d` matches. */
  predicate IsDigit(c: char) {
    '0' <= c <= '9'
  }

  /** Four digits start at `j`. */
  predicate FourDigitsAt(v: string, j: int) {
    0 <= j && j + 4 <= |v| && forall k :: j <= k < j + 4 ==> IsDigit(v[k])
  }

  /** End of the run of whitespace starting at `from`: where greedy `\s*` stops. */
  function SpaceEnd(s: string, from: nat): (e: nat)
    requires from <= |s|
    ensures from <= e <= |s|
    ensures AllSpace(s[from..e])
    ensures e == |s| || !IsSpace(s[e])
    decreases |s| - from
  {
    if from == |s| || !IsSpace(s[from]) then from
    else
      var e := SpaceEnd(s, from + 1);
      assert s[from..e] == [s[from]] + s[from + 1..e];
      e
  }

  /** `,\s*(\d{4})` matches at `k`, reading `\s*` as the whole whitespace run. */
  predicate YearAt(v: string, k: int) {
    0 <= k < |v| && v[k] == ',' && FourDigitsAt(v, SpaceEnd(v, k + 1))
  }

  /** The same, read as the regular expression defines it: some whitespace
      stretch, of whatever length, after the comma and then four digits. */
  ghost predicate RegexYearAt(v: string, k: int) {
    0 <= k < |v| && v[k] == ',' &&
    exists j :: k < j <= |v| && AllSpace(v[k + 1..j]) && FourDigitsAt(v, j)
  }

  lemma SpaceRunAt(v: string, from: int, to: int, i: int)
    ensures 0 <= from <= i < to <= |v| && AllSpace(v[from..to]) ==> IsSpace(v[i])
  {
    if 0 <= from <= i < to <= |v| {
      assert v[from..to][i - from] == v[i];
    }
  }

  /** Backtracking into `\s*` never finds another match: a digit is not
      whitespace, so the four digits can only start where the run ends. */
  lemma YearAtIsRegex(v: string, k: int)
    ensures YearAt(v, k) <==> RegexYearAt(v, k)
  {
    if 0 <= k < |v| && v[k] == ',' {
      var e := SpaceEnd(v, k + 1);
      if FourDigitsAt(v, e) {
        assert k < e <= |v| && AllSpace(v[k + 1..e]);
      }
      if RegexYearAt(v, k) {
        var j :| k < j <= |v| && AllSpace(v[k + 1..j]) && FourDigitsAt(v, j);
        SpaceRunAt(v, k + 1, e, j);
        SpaceRunAt(v, k + 1, j, e);
        assert j == e;
      }
    }
  }

  /** `(.*?),\s*(\d{4})` matches at the start with group 1 spanning `v[..k]`:
      `.` does not match a newline, so the venue part before the comma holds none. */
  predicate VenueMatchAt(v: string, k: int) {
    0 <= k && YearAt(v, k) && '\n' !in v[..k]
  }

  /** `k` is where the lazy group `(.*?)` stops: the least match. */
  predicate LeastVenueMatch(v: string, k: int) {
    VenueMatchAt(v, k) && forall j :: 0 <= j < k ==> !VenueMatchAt(v, j)
  }

  /** The lazy `.*?` tries the shortest group first: the least `k` at or
      after `from` that matches. */
  function VenueMatchFrom(v: string, from: nat): (r: Option<nat>)
    requires from <= |v|
    ensures r.Some? ==> from <= r.value && VenueMatchAt(v, r.value)
    ensures r.Some? ==> forall k :: from <= k < r.value ==> !VenueMatchAt(v, k)
    ensures r.None? ==> forall k :: from <= k ==> !VenueMatchAt(v, k)
    decreases |v| - from
  {
    if VenueMatchAt(v, from) then Some(from)
    else if from == |v| then None
    else VenueMatchFrom(v, from + 1)
  }

  function Pow10(n: nat): (p: nat)
    ensures p >= 1
  {
    if n == 0 then 1 else 10 * Pow10(n - 1)
  }

  /** `int()` of a string of decimal digits; `n` digits denote less than 10^n. */
  function DigitsValue(ds: string): (n: nat)
    requires forall k :: 0 <= k < |ds| ==> IsDigit(ds[k])
    ensures n < Pow10(|ds|)
    decreases |ds|
  {
    if ds == [] then 0
    else
      var d := ds[|ds| - 1] as int - '0' as int;
      assert IsDigit(ds[|ds| - 1]);
      DigitsValue(ds[..|ds| - 1]) * 10 + d
  }

  /** The year the four digits at a match denote, in 0..9999. */
  function YearValue(v: string, k: int): (y: int)
    requires YearAt(v, k)
    ensures 0 <= y <= 9999
  {
    var j := SpaceEnd(v, k + 1);
    assert Pow10(4) == 10000;
    DigitsValue(v[j..j + 4])
  }

  function DigitChar(d: int): (c: char)
    requires 0 <= d < 10
    ensures IsDigit(c) && c as int - '0' as int == d
  {
    ('0' as int + d) as char
  }

  /** A year in 0..9999 written with four digits, zero-padded. */
  function FourDigits(y: int): (ds: string)
    requires 0 <= y <= 9999
    ensures |ds| == 4 && forall k :: 0 <= k < 4 ==> IsDigit(ds[k])
  {
    [DigitChar(y / 1000), DigitChar(y / 100 % 10), DigitChar(y / 10 % 10), DigitChar(y % 10)]
  }

  /** Reading the four digits back gives the year. */
  lemma FourDigitsValue(y: int)
    requires 0 <= y <= 9999
    ensures DigitsValue(FourDigits(y)) == y
  {
    var ds := FourDigits(y);
    assert y / 10 / 10 == y / 100 && y / 100 / 10 == y / 1000;
    assert y / 100 == y / 1000 * 10 + y / 100 % 10;
    assert y / 10 == y / 100 * 10 + y / 10 % 10;
    assert y == y / 10 * 10 + y % 10;
    assert ds[..4] == ds && ds[..3][..2] == ds[..2] && ds[..2][..1] == ds[..1] && ds[..1][..0] == [];
    assert DigitsValue(ds[..1]) == y / 1000;
    assert DigitsValue(ds[..2]) == y / 100;
    assert DigitsValue(ds[..3]) == y / 10;
  }

  /** Venue and year recognised in the part of a byline after the first
      ` - `: the stripped text before the earliest comma that is followed by
      optional whitespace and four digits, and those four digits as a year.
      `None` when `re.match` finds nothing. */
  function MatchVenueYear(v: string): (r: Option<(string, int)>)
    ensures r.None? <==> forall k :: !VenueMatchAt(v, k)
    ensures r.Some? ==> 0 <= r.value.1 <= 9999 && Trimmed(r.value.0) && '\n' !in r.value.0
    ensures r.Some? ==> exists k :: LeastVenueMatch(v, k) && r.value == (Strip(v[..k]), YearValue(v, k))
  {
    match VenueMatchFrom(v, 0)
    case None => None
    case Some(k) =>
      StripKeepsAbsent(v[..k], '\n');
      assert LeastVenueMatch(v, k);
      Some((Strip(v[..k]), YearValue(v, k)))
  }

  /** The match `MatchVenueYear` reports is the least one. */
  lemma MatchVenueYearAt(v: string, k: int)
    requires LeastVenueMatch(v, k)
    ensures MatchVenueYear(v) == Some((Strip(v[..k]), YearValue(v, k)))
  {
    var r := MatchVenueYear(v);
    var k' :| LeastVenueMatch(v, k') && r.value == (Strip(v[..k']), YearValue(v, k'));
    assert k' == k;
  }

  lemma FormattedYearAt(venue: string, y: int)
    requires 0 <= y <= 9999
    ensures YearAt(venue + ", " + FourDigits(y), |venue|)
    ensures YearValue(venue + ", " + FourDigits(y), |venue|) == y
  {
    var ds := FourDigits(y);
    var v := venue + ", " + ds;
    var n := |venue|;
    assert v[n] == ',' && v[n + 1] == ' ' && v[n + 2..n + 6] == ds;
    assert SpaceEnd(v, n + 2) == n + 2;
    FourDigitsValue(y);
  }

  lemma FormattedLeastMatch(venue: string, y: int)
    requires ',' !in venue && '\n' !in venue
    requires 0 <= y <= 9999
    ensures LeastVenueMatch(venue + ", " + FourDigits(y), |venue|)
  {
    var v := venue + ", " + FourDigits(y);
    FormattedYearAt(venue, y);
    assert v[..|venue|] == venue;
    forall k | 0 <= k < |venue|
      ensures !VenueMatchAt(v, k)
    {
      assert v[k] == venue[k];
    }
  }

  /** A venue free of commas and newlines, followed by `, ` and a four-digit
      year, is recognised as exactly that venue and year. */
  lemma MatchVenueYearFormatted(venue: string, y: int)
    requires Trimmed(venue) && ',' !in venue && '\n' !in venue
    requires 0 <= y <= 9999
    ensures MatchVenueYear(venue + ", " + FourDigits(y)) == Some((venue, y))
  {
    var v := venue + ", " + FourDigits(y);
    FormattedYearAt(venue, y);
    FormattedLeastMatch(venue, y);
    MatchVenueYearAt(v, |venue|);
    assert v[..|venue|] == venue;
    StripUnique([], venue, []);
    assert [] + venue + [] == venue;
  }
}

=== FILE: percent.dfy ===
/** Percent-decoding as done by `urllib.parse.unquote`, restricted to escapes
    of ASCII bytes, together with the matching encoder. */
module Percent {
  import opened Text

  predicate IsHexDigit(c: char) {
    ('0' <= c <= '9') || ('A' <= c <= 'F') || ('a' <= c <= 'f')
  }

  /** The value of a hexadecimal digit; either case is accepted. */
  function HexValue(c: char): (n: nat)
    requires IsHexDigit(c)
    ensures n < 16
  {
    if '0' <= c <= '9' then c as int - '0' as int
    else if 'A' <= c <= 'F' then c as int - 'A' as int + 10
    else c as int - 'a' as int + 10
  }

  /** The upper-case hexadecimal digit for `n`. */
  function HexDigit(n: nat): (c: char)
    requires n < 16
    ensures IsHexDigit(c) && HexValue(c) == n
  {
    if n < 10 then ('0' as int + n) as char else ('A' as int + n - 10) as char
  }

  predicate IsAscii(c: char) {
    c as int < 0x80
  }

  predicate IsAsciiText(s: string) {
    forall i :: 0 <= i < |s| ==> IsAscii(s[i])
  }

  /** `s` starts with an escape `%XY` of an ASCII byte: two hexadecimal
      digits whose value is below 0x80. */
  predicate AsciiEscapeAt(s: string, i: nat) {
    && i + 2 < |s|
    && s[i] == '%'
    && IsHexDigit(s[i + 1])
    && IsHexDigit(s[i + 2])
    && HexValue(s[i + 1]) * 16 + HexValue(s[i + 2]) < 0x80
  }

  /** `unquote(s)`: every `%XY` escape of an ASCII byte becomes that
      character; every other character, `%` and `+` included, is copied
      unchanged. A `%` that does not start a valid escape is kept as text
      and the scan resumes right after it. */
  function Unquote(s: string): (r: string)
    ensures |r| <= |s|
    decreases |s|
  {
    if s == [] then []
    else if AsciiEscapeAt(s, 0) then
      [(HexValue(s[1]) * 16 + HexValue(s[2])) as char] + Unquote(s[3..])
    else [s[0]] + Unquote(s[1..])
  }

  /** A prefix without `%` passes through `Unquote` untouched: in particular a
      string without `%` is returned unchanged, and `+` never becomes a space. */
  lemma {:induction false} UnquoteLiteralPrefix(a: string, b: string)
    requires '%' !in a
    ensures Unquote(a + b) == a + Unquote(b)
    decreases |a|
  {
    if a != [] {
      assert (a + b)[0] == a[0];
      assert (a + b)[1..] == a[1..] + b;
      UnquoteLiteralPrefix(a[1..], b);
      assert [a[0]] + a[1..] == a;
    } else {
      assert a + b == b;
    }
  }

  /** A string without `%` is its own decoding. */
  lemma UnquoteWithoutPercent(s: string)
    requires '%' !in s
    ensures Unquote(s) == s
  {
    UnquoteLiteralPrefix(s, []);
    assert s + [] == s;
  }

  /** Characters `quote(s, safe='')` leaves alone. */
  predicate Unreserved(c: char) {
    ('A' <= c <= 'Z') || ('a' <= c <= 'z') || ('0' <= c <= '9')
    || c == '_' || c == '.' || c == '-' || c == '~'
  }

  /** The encoding of one ASCII character: itself when unreserved,
      otherwise `%` and two upper-case hexadecimal digits. */
  function QuoteChar(c: char): (e: string)
    requires IsAscii(c)
    ensures |e| == 1 || |e| == 3
  {
    if Unreserved(c) then [c]
    else ['%', HexDigit(c as int / 16), HexDigit(c as int % 16)]
  }

  /** `quote(s, safe='')` for ASCII text: the encoder `Unquote` inverts. */
  function Quote(s: string): (e: string)
    requires IsAsciiText(s)
    ensures |e| >= |s|
  {
    if s == [] then [] else QuoteChar(s[0]) + Quote(s[1..])
  }

  /** An encoding holds only unreserved characters and `%`: never `&`, `/` or `=`. */
  lemma {:induction false} QuoteAlphabet(s: string)
    requires IsAsciiText(s)
    ensures forall i :: 0 <= i < |Quote(s)| ==> Unreserved(Quote(s)[i]) || Quote(s)[i] == '%'
    decreases |s|
  {
    if s != [] {
      QuoteAlphabet(s[1..]);
      var e := QuoteChar(s[0]);
      assert forall i :: 0 <= i < |e| ==> Unreserved(e[i]) || e[i] == '%';
    }
  }

  lemma UnquoteQuoteChar(c: char, t: string)
    requires IsAscii(c)
    ensures Unquote(QuoteChar(c) + t) == [c] + Unquote(t)
  {
    var s := QuoteChar(c) + t;
    if Unreserved(c) {
      assert s[1..] == t;
    } else {
      assert s[3..] == t;
      assert AsciiEscapeAt(s, 0);
      assert (HexValue(s[1]) * 16 + HexValue(s[2])) as char == c;
    }
  }

  /** Decoding an encoded ASCII string gives the string back. */
  lemma {:induction false} UnquoteQuote(s: string)
    requires IsAsciiText(s)
    ensures Unquote(Quote(s)) == s
    decreases |s|
  {
    if s != [] {
      UnquoteQuote(s[1..]);
      UnquoteQuoteChar(s[0], Quote(s[1..]));
      assert [s[0]] + s[1..] == s;
    }
  }

  /** An encoded `scheme://host/path` decodes to the plain URL, as long as
      none of the three parts holds a `%` of its own: `https%3A%2F%2Fexample.org%2Fpaper`
      decodes to `https://example.org/paper`. */
  lemma UnquoteEncodedUrl(scheme: string, host: string, path: string)
    requires '%' !in scheme && '%' !in host && '%' !in path
    ensures Unquote(scheme + ("%3A%2F%2F" + (host + ("%2F" + path))))
         == scheme + ("://" + (host + ("/" + path)))
  {
    var h := host + ("%2F" + path);
    UnquoteHostPath(host, path);
    UnquoteSeparator(h);
    UnquoteLiteralPrefix(scheme, "%3A%2F%2F" + h);
  }

  lemma UnquoteHostPath(host: string, path: string)
    requires '%' !in host && '%' !in path
    ensures Unquote(host + ("%2F" + path)) == host + ("/" + path)
  {
    UnquoteWithoutPercent(path);
    UnquoteEscape('2', 'F', path);
    UnquoteLiteralPrefix(host, "%2F" + path);
  }

  lemma UnquoteSeparator(h: string)
    ensures Unquote("%3A%2F%2F" + h) == "://" + Unquote(h)
  {
    var a := "%2F" + h;
    var b := "%2F" + a;
    UnquoteSlash(h);
    UnquoteSlash(a);
    assert ['%', '3', 'A'] + b == "%3A%2F%2F" + h;
    UnquoteEscape('3', 'A', b);
    assert [(HexValue('3') * 16 + HexValue('A')) as char] == ":";
  }

  lemma UnquoteSlash(t: string)
    ensures Unquote("%2F" + t) == "/" + Unquote(t)
  {
    assert ['%', '2', 'F'] + t == "%2F" + t;
    UnquoteEscape('2', 'F', t);
    assert [(HexValue('2') * 16 + HexValue('F')) as char] == "/";
  }

  lemma UnquoteEscape(x: char, y: char, t: string)
    requires IsHexDigit(x) && IsHexDigit(y) && HexValue(x) * 16 + HexValue(y) < 0x80
    ensures Unquote(['%', x, y] + t) == [(HexValue(x) * 16 + HexValue(y)) as char] + Unquote(t)
  {
    var s := ['%', x, y] + t;
    assert AsciiEscapeAt(s, 0);
    assert s[3..] == t;
  }
}

=== FILE: render.dfy ===
/** The other direction: the alert email for one publication, laid out the
    way the parser reads it. The title anchor links through a redirect
    whose `url=` parameter carries the percent-encoded article URL, the
    byline reads `Author, Author - Venue, Year`, and the profile anchor
    links to the author's citations page. Parsing such an email gives the
    publication back. */
module AlertRender {
  import opened Wrappers
  import opened Text
  import opened Percent
  import opened Patterns
  import opened Alert

  const RedirectPath := "scholar_url?"
  const LinkSuffix := "&hl=en"
  const BylineStyle := "color:" + BylineColor

  /** The author names as the byline prints them, each after the first
      preceded by a space. */
  function Padded(xs: seq<string>): (r: seq<string>)
    ensures |r| == |xs|
  {
    seq(|xs|, i requires 0 <= i < |xs| => if i == 0 then xs[0] else " " + xs[i])
  }

  /** `A, B, C`. */
  function AuthorsText(xs: seq<string>): string {
    Join(Padded(xs), ',')
  }

  /** `Venue, YYYY`, or a lone `-` when there is no venue, so that the
      byline does not end in the separator's trailing space. */
  function VenueText(venue: Option<string>, year: int): string
    requires venue.Some? ==> 0 <= year <= 9999
  {
    match venue
    case None => "-"
    case Some(v) => v + ", " + FourDigits(year)
  }

  /** The title link: the redirect with the encoded article URL. */
  function TitleHref(url: Option<string>): Option<string>
    requires url.Some? ==> IsAsciiText(url.value)
  {
    match url
    case None => None
    case Some(u) => Some(RedirectPath + "url=" + Quote(u) + LinkSuffix)
  }

  /** The page of the alert: title anchor, byline when there are authors,
      profile anchor when there is a profile. */
  function RenderDoc(p: Publication): Document
    requires p.url.Some? ==> IsAsciiText(p.url.value)
    requires p.venue.Some? ==> 0 <= p.year <= 9999
  {
    [Anchor([TitleClass], TitleHref(p.url), p.title)]
    + (if p.authors == [] then []
       else [Div(Some(BylineStyle), AuthorsText(p.authors) + Separator + VenueText(p.venue, p.year))])
    + (match p.scholarUrl
       case None => []
       case Some(s) => [Anchor([], Some(s), [])])
  }

  /** The alert email: one `text/html` part, the publication's id as its `Message-ID`. */
  function Render(p: Publication, html: string): Message
    requires p.url.Some? ==> IsAsciiText(p.url.value)
    requires p.venue.Some? ==> 0 <= p.year <= 9999
  {
    Message(SinglePart(Part(HtmlType, Decoded(html, RenderDoc(p)))), p.emailId)
  }

  /** The authors' text holds no ` - `, also not one completed by the separator after it. */
  predicate NoSeparatorIn(a: string) {
    forall j :: 0 <= j < |a| ==> !OccursAt(a + " -", Separator, j)
  }

  predicate AuthorNameRenderable(a: string) {
    Trimmed(a) && ',' !in a
  }

  predicate VenueRenderable(v: string) {
    Trimmed(v) && ',' !in v && '\n' !in v
  }

  /** A publication the parser reads back exactly from its alert: a trimmed
      title, stripped comma-free names (not the single empty name) whose
      printed list completes no ` - `, a trimmed single-line venue, the current year when there is no venue, an ASCII
      article link and a profile link without `%`. The parser can also
      produce records outside this set (names such as `- b`, a profile
      link holding `%`, a non-ASCII article link). */
  predicate Renderable(p: Publication, currentYear: int) {
    && Trimmed(p.title)
    && p.authors != [""]
    && (p.url.Some? ==> p.url.value != [] && IsAsciiText(p.url.value))
    && (p.scholarUrl.Some? ==> Contains(p.scholarUrl.value, ProfileMarker) && '%' !in p.scholarUrl.value)
    && (forall i :: 0 <= i < |p.authors| ==> AuthorNameRenderable(p.authors[i]))
    && (p.authors != [] ==> NoSeparatorIn(AuthorsText(p.authors)))
    && (p.authors == [] ==> p.venue.None?)
    && (p.venue.None? ==> p.year == currentYear)
    && (p.venue.Some? ==> VenueRenderable(p.venue.value) && 0 <= p.year <= 9999)
  }

  lemma PaddedCommaFree(xs: seq<string>)
    requires forall i :: 0 <= i < |xs| ==> AuthorNameRenderable(xs[i])
    ensures forall i :: 0 <= i < |xs| ==> ',' !in Padded(xs)[i]
  {
    forall i | 0 <= i < |xs|
      ensures ',' !in Padded(xs)[i]
    {
      if i > 0 {
        assert Padded(xs)[i] == " " + xs[i];
      }
    }
  }

  lemma PaddedStrip(xs: seq<string>, i: int)
    requires 0 <= i < |xs| && AuthorNameRenderable(xs[i])
    ensures Strip(Padded(xs)[i]) == xs[i]
  {
    if i == 0 {
      assert [] + xs[0] + [] == Padded(xs)[0];
      StripUnique([], xs[0], []);
    } else {
      assert " " + xs[i] + [] == Padded(xs)[i];
      StripUnique(" ", xs[i], []);
    }
  }

  /** Splitting the printed author list at commas and stripping gives the names back. */
  lemma AuthorsRoundTrip(xs: seq<string>)
    requires |xs| >= 1
    requires forall i :: 0 <= i < |xs| ==> AuthorNameRenderable(xs[i])
    ensures SplitAuthors(AuthorsText(xs)) == xs
  {
    PaddedCommaFree(xs);
    SplitJoin(Padded(xs), ',');
    var r := SplitAuthors(AuthorsText(xs));
    forall i | 0 <= i < |xs|
      ensures r[i] == xs[i]
    {
      PaddedStrip(xs, i);
    }
  }

  /** An occurrence that ends inside a prefix is an occurrence in that prefix. */
  lemma OccursInPrefix(s: string, head: string, pat: string, j: int)
    requires |head| <= |s| && s[..|head|] == head
    ensures OccursAt(s, pat, j) && j + |pat| <= |head| ==> OccursAt(head, pat, j)
  {
    if OccursAt(s, pat, j) && j + |pat| <= |head| {
      forall k | 0 <= k < |pat|
        ensures head[j..j + |pat|][k] == pat[k]
      {
        assert head[j + k] == s[..|head|][j + k] == s[j..j + |pat|][k];
      }
    }
  }

  /** The separator after the authors is the first one in the byline. */
  lemma SeparatorFirstAt(a: string, t: string)
    requires NoSeparatorIn(a)
    ensures SplitOnce(a + Separator + t, Separator) == Some((a, t))
  {
    var s := a + Separator + t;
    var head := a + " -";
    assert s[..|a| + 2] == head;
    forall j | 0 <= j < |a|
      ensures !OccursAt(s, Separator, j)
    {
      OccursInPrefix(s, head, Separator, j);
    }
    assert s[|a|..|a| + 3] == Separator;
    assert s[..|a|] == a;
    assert s[|a| + 3..] == t;
    SplitOnceAt(s, Separator, |a|);
  }

  /** The printed byline reads back as the authors, venue and year printed. */
  lemma BylineRoundTrip(xs: seq<string>, venue: Option<string>, year: int, currentYear: int)
    requires |xs| >= 1
    requires forall i :: 0 <= i < |xs| ==> AuthorNameRenderable(xs[i])
    requires NoSeparatorIn(AuthorsText(xs))
    requires venue.None? ==> year == currentYear
    requires venue.Some? ==> VenueRenderable(venue.value) && 0 <= year <= 9999
    ensures ParseByline(AuthorsText(xs) + Separator + VenueText(venue, year), currentYear) == Byline(xs, venue, year)
  {
    SeparatorFirstAt(AuthorsText(xs), VenueText(venue, year));
    AuthorsRoundTrip(xs);
    match venue
    case None =>
      assert forall k :: !VenueMatchAt("-", k);
    case Some(v) =>
      MatchVenueYearFormatted(v, year);
  }

  /** An encoding has no `&` and no `/`. */
  lemma QuoteSeparatorFree(u: string)
    requires IsAsciiText(u)
    ensures '&' !in Quote(u) && '/' !in Quote(u)
  {
    QuoteAlphabet(u);
  }

  lemma SeparatorNeedsDash(a: string, j: int)
    ensures 0 <= j < |a| && OccursAt(a + " -", Separator, j) ==> j + 1 < |a| && a[j + 1] == '-'
  {
    if 0 <= j < |a| && OccursAt(a + " -", Separator, j) {
      assert (a + " -")[j + 1] == (a + " -")[j..j + 3][1] == '-';
    }
  }

  /** Author names without a dash never run into the separator. */
  lemma NoDashNoSeparator(a: string)
    requires '-' !in a
    ensures NoSeparatorIn(a)
  {
    forall j | 0 <= j < |a|
      ensures !OccursAt(a + " -", Separator, j)
    {
      SeparatorNeedsDash(a, j);
    }
  }

  // The example lemmas take their strings as parameters pinned down by a
  // `requires` rather than writing them inline: a string literal as the
  // argument of a recursive function lets the verifier unfold it without
  // bound, which costs far more than the proof itself.

  lemma ExampleAuthors(xs: seq<string>)
    requires xs == ["A. Smith", "B. Lee"]
    ensures AuthorsText(xs) == "A. Smith, B. Lee"
  {
    var ps := Padded(xs);
    assert ps[0] == "A. Smith" && ps[1] == " B. Lee";
    assert ps[1..] == [" B. Lee"];
    assert Join(ps, ',') == "A. Smith" + [','] + " B. Lee";
  }

  lemma ExampleNames(xs: seq<string>, authors: string, venue: string)
    requires xs == ["A. Smith", "B. Lee"] && authors == "A. Smith, B. Lee" && venue == "Journal of Y"
    ensures forall i :: 0 <= i < |xs| ==> AuthorNameRenderable(xs[i])
    ensures VenueRenderable(venue)
    ensures NoSeparatorIn(authors)
  {
    NoDashNoSeparator(authors);
  }

  /** A typical byline: `A. Smith, B. Lee - Journal of Y, 2023` reads as
      the two authors, the venue `Journal of Y` and the year 2023. */
  lemma BylineExample(text: string, xs: seq<string>, venue: string, currentYear: int)
    requires text == "A. Smith, B. Lee - Journal of Y, 2023"
    requires xs == ["A. Smith", "B. Lee"] && venue == "Journal of Y"
    ensures ParseByline(text, currentYear) == Byline(xs, Some(venue), 2023)
  {
    ExampleAuthors(xs);
    ExampleNames(xs, AuthorsText(xs), venue);
    ExampleText(text, AuthorsText(xs), venue);
    BylineRoundTrip(xs, Some(venue), 2023, currentYear);
  }

  lemma ExampleText(text: string, authors: string, venue: string)
    requires text == "A. Smith, B. Lee - Journal of Y, 2023"
    requires authors == "A. Smith, B. Lee" && venue == "Journal of Y"
    ensures text == authors + Separator + VenueText(Some(venue), 2023)
  {
    ExampleYear(2023);
  }

  lemma ExampleYear(y: int)
    requires y == 2023
    ensures FourDigits(y) == "2023"
  {
  }

  /** The title link carries the article URL back out. */
  lemma TitleLinkRoundTrip(u: string)
    requires u != [] && IsAsciiText(u)
    ensures ArticleUrl(TitleHref(Some(u))) == Some(u)
  {
    QuoteSeparatorFree(u);
    UrlParamAfter(RedirectPath, Quote(u), LinkSuffix);
    UnquoteQuote(u);
  }

  /** A title link whose `url=` parameter holds an encoded `scheme://host/path`
      yields that URL decoded: `url=https%3A%2F%2Fexample.org%2Fpaper` yields
      `https://example.org/paper`. */
  lemma EncodedArticleUrl(base: string, scheme: string, host: string, path: string, rest: string)
    requires '=' !in base
    requires scheme != []
    requires '%' !in scheme && '%' !in host && '%' !in path
    requires '&' !in scheme && '&' !in host && '&' !in path
    requires rest == [] || rest[0] == '&'
    ensures ArticleUrl(Some(base + "url=" + (scheme + ("%3A%2F%2F" + (host + ("%2F" + path)))) + rest))
         == Some(scheme + ("://" + (host + ("/" + path))))
  {
    var e := scheme + ("%3A%2F%2F" + (host + ("%2F" + path)));
    assert '&' !in "%3A%2F%2F" && '&' !in "%2F";
    assert '&' !in e;
    UrlParamAfter(base, e, rest);
    UnquoteEncodedUrl(scheme, host, path);
  }

  /** The title link is not a profile link. */
  lemma TitleLinkNotProfile(u: string)
    requires IsAsciiText(u)
    ensures !Contains(TitleHref(Some(u)).value, ProfileMarker)
  {
    var e := Quote(u);
    QuoteSeparatorFree(u);
    var h := RedirectPath + "url=" + e + LinkSuffix;
    assert '/' !in RedirectPath + "url=" && '/' !in LinkSuffix;
    assert '/' !in h;
    NoMarkerWithoutSlash(h);
  }

  lemma MarkerHasSlash(s: string, j: int)
    ensures OccursAt(s, ProfileMarker, j) ==> '/' in s
  {
    if OccursAt(s, ProfileMarker, j) {
      assert s[j..j + 28][18] == '/';
    }
  }

  /** Every citations link has a `/`. */
  lemma NoMarkerWithoutSlash(s: string)
    requires '/' !in s
    ensures !Contains(s, ProfileMarker)
  {
    forall j
      ensures !OccursAt(s, ProfileMarker, j)
    {
      MarkerHasSlash(s, j);
    }
  }

  /** The rendered page yields the publication's byline. */
  lemma RenderedByline(p: Publication, currentYear: int)
    requires Renderable(p, currentYear)
    ensures PageByline(RenderDoc(p), currentYear) == Byline(p.authors, p.venue, p.year)
  {
    var doc := RenderDoc(p);
    if p.authors == [] {
      assert forall i :: 0 <= i < |doc| ==> doc[i].Anchor?;
    } else {
      assert OccursAt(BylineStyle, BylineColor, 6);
      assert IsByline(doc[1]);
      FirstAt(doc, IsByline, 1);
      BylineRoundTrip(p.authors, p.venue, p.year, currentYear);
    }
  }

  /** Every element text of the rendered page is trimmed, as the text an
      element's `get_text(strip=True)` returns always is: the page is one a
      real alert can have. */
  lemma RenderedTextsTrimmed(p: Publication, currentYear: int)
    requires Renderable(p, currentYear)
    ensures forall i :: 0 <= i < |RenderDoc(p)| ==> Trimmed(RenderDoc(p)[i].text)
  {
    var doc := RenderDoc(p);
    if p.authors != [] {
      var xs := p.authors;
      var tail := VenueText(p.venue, p.year);
      var b := AuthorsText(xs) + Separator + tail;
      assert doc[1].text == b;
      assert Padded(xs)[0] == xs[0];
      if xs[0] != [] {
        assert b[0] == xs[0][0];
      } else {
        assert |xs| >= 2;
        assert Padded(xs)[0] + [','] + Join(Padded(xs)[1..], ',') == AuthorsText(xs);
        assert b[0] == ',';
      }
      assert b[|b| - 1] == tail[|tail| - 1];
    }
  }

  /** The rendered page yields the publication's profile link. */
  lemma RenderedProfile(p: Publication, currentYear: int)
    requires Renderable(p, currentYear)
    ensures ProfileUrl(RenderDoc(p)) == p.scholarUrl
  {
    var doc := RenderDoc(p);
    if p.url.Some? {
      TitleLinkNotProfile(p.url.value);
    }
    var rest := if p.authors == [] then [] else [doc[1]];
    assert forall i :: 0 <= i < |rest| ==> rest[i].Div?;
    assert doc[..1 + |rest|] == [doc[0]] + rest;
    assert forall i :: 0 <= i < 1 + |rest| ==> !IsProfileLink(doc[i]);
    match p.scholarUrl
    case None =>
    case Some(s) =>
      FirstAt(doc, IsProfileLink, |doc| - 1);
      UnquoteWithoutPercent(s);
  }

  /** Parsing the alert rendered for a publication gives the publication back. */
  lemma ParseRendered(p: Publication, html: string, currentYear: int)
    requires Renderable(p, currentYear) && html != []
    ensures ParseAlert(Render(p, html), currentYear, p.notificationDate) == Success(p)
  {
    var doc := RenderDoc(p);
    var m := Render(p, html);
    assert HtmlContent(m) == Success((html, doc));
    FirstAt(doc, IsTitleAnchor, 0);
    if p.url.Some? {
      TitleLinkRoundTrip(p.url.value);
    }
    RenderedByline(p, currentYear);
    RenderedProfile(p, currentYear);
  }
}

=== FILE: store.dfy ===
/** The publication store (`ScholarMonitor.store_publication` over the
    tables `setup_database` creates). A store is the contents of its two
    tables; an insertion either commits both rows or leaves both tables as
    they were. */
module Store {
  import opened Wrappers
  import opened Text
  import opened Alert

  /** A row of `publications`; the authors are stored comma-joined. The
      autoincrement `id` column is left out. */
  datatype PublicationRow = PublicationRow(
    title: string,
    authors: string,
    venue: Option<string>,
    year: int,
    url: Option<string>,
    scholarUrl: Option<string>,
    notificationDate: Timestamp,
    emailId: Option<string>)

  /** A row of `processed_emails`. Its `email_id` is a `TEXT PRIMARY KEY`,
      which SQLite lets be NULL. */
  datatype MarkerRow = MarkerRow(emailId: Option<string>, processDate: Timestamp)

  /** Both tables, rows in insertion order. */
  datatype Store = Store(publications: seq<PublicationRow>, markers: seq<MarkerRow>)

  /** The tables of a freshly created database. */
  const Empty := Store([], [])

  /** Which statement of the insertion fails for a reason other than a
      constraint (a full disk, a locked database). */
  datatype Step = PublicationInsert | MarkerInsert | Commit

  /** `Inserted`: both rows committed. `AlreadyExists`: a constraint was
      violated (`IntegrityError`). `StorageError`: any other failure. */
  datatype Outcome = Inserted | AlreadyExists | StorageError

  /** The row the insertion writes for a publication. */
  function RowOf(pub: Publication): PublicationRow {
    PublicationRow(pub.title, Join(pub.authors, ','), pub.venue, pub.year, pub.url,
                   pub.scholarUrl, pub.notificationDate, pub.emailId)
  }

  /** The `UNIQUE(title, authors, year)` key of two rows is equal. */
  predicate SameKey(a: PublicationRow, b: PublicationRow) {
    a.title == b.title && a.authors == b.authors && a.year == b.year
  }

  /** Two `email_id` values collide in a unique column: both are present and
      equal. NULLs never collide. */
  predicate SameId(x: Option<string>, y: Option<string>) {
    x.Some? && y == x
  }

  /** Inserting `row` into `publications` violates a constraint. */
  predicate PublicationConflict(s: Store, row: PublicationRow) {
    exists i :: 0 <= i < |s.publications| &&
      (SameKey(s.publications[i], row) || SameId(s.publications[i].emailId, row.emailId))
  }

  /** Inserting `id` into `processed_emails` violates its primary key. */
  predicate MarkerConflict(s: Store, id: Option<string>) {
    exists i :: 0 <= i < |s.markers| && SameId(s.markers[i].emailId, id)
  }

  /** `store_publication`: insert the publication row, then the processed
      marker, then commit. A constraint violation on either insert is
      reported as a duplicate and the connection closed without commit;
      any other failure is rolled back. Either way nothing is written. */
  function Insert(s: Store, pub: Publication, processedAt: Timestamp, fault: Option<Step>): (r: (Outcome, Store))
    ensures r.0 == Inserted <==>
              fault.None? && !PublicationConflict(s, RowOf(pub)) && !MarkerConflict(s, pub.emailId)
    ensures r.0 == Inserted ==>
              && r.1.publications == s.publications + [RowOf(pub)]
              && r.1.markers == s.markers + [MarkerRow(pub.emailId, processedAt)]
    ensures r.0 != Inserted ==> r.1 == s
    ensures r.0 == AlreadyExists ==> PublicationConflict(s, RowOf(pub)) || MarkerConflict(s, pub.emailId)
    ensures r.0 == StorageError ==> fault.Some?
    ensures fault == Some(PublicationInsert) ==> r.0 == StorageError
    ensures fault != Some(PublicationInsert) && PublicationConflict(s, RowOf(pub)) ==> r.0 == AlreadyExists
    ensures fault != Some(PublicationInsert) && fault != Some(MarkerInsert) && MarkerConflict(s, pub.emailId) ==>
              r.0 == AlreadyExists
  {
    var row := RowOf(pub);
    if fault == Some(PublicationInsert) then (StorageError, s)
    else if PublicationConflict(s, row) then (AlreadyExists, s)
    else if fault == Some(MarkerInsert) then (StorageError, s)
    else if MarkerConflict(s, pub.emailId) then (AlreadyExists, s)
    else if fault.Some? then (StorageError, s)  // only the commit is left to fail
    else (Inserted, Store(s.publications + [row], s.markers + [MarkerRow(pub.emailId, processedAt)]))
  }

  /** What every store built by insertions satisfies: the table constraints
      hold, and the i-th marker belongs to the i-th publication. */
  predicate Valid(s: Store) {
    && |s.publications| == |s.markers|
    && (forall i :: 0 <= i < |s.markers| ==> s.markers[i].emailId == s.publications[i].emailId)
    && (forall i, j :: 0 <= i < j < |s.publications| ==> !SameKey(s.publications[i], s.publications[j]))
    && (forall i, j :: 0 <= i < j < |s.publications| ==>
          !SameId(s.publications[i].emailId, s.publications[j].emailId))
  }

  lemma EmptyValid()
    ensures Valid(Empty)
  {
  }

  /** Insertion keeps a store valid, whatever fails. */
  lemma InsertPreservesValid(s: Store, pub: Publication, processedAt: Timestamp, fault: Option<Step>)
    requires Valid(s)
    ensures Valid(Insert(s, pub, processedAt, fault).1)
  {
    var (o, t) := Insert(s, pub, processedAt, fault);
    if o == Inserted {
      var row := RowOf(pub);
      var n := |s.publications|;
      assert t.publications == s.publications + [row];
      assert forall i :: 0 <= i < n ==> !SameKey(s.publications[i], row) && !SameId(s.publications[i].emailId, row.emailId);
      assert t.publications[n] == row;
    }
  }

  /** The non-null ids of the stored publications. */
  function PublishedIds(s: Store): set<string> {
    set i | 0 <= i < |s.publications| && s.publications[i].emailId.Some? :: s.publications[i].emailId.value
  }

  /** The non-null ids of the processed emails. */
  function ProcessedIds(s: Store): set<string> {
    set i | 0 <= i < |s.markers| && s.markers[i].emailId.Some? :: s.markers[i].emailId.value
  }

  /** In a valid store an email is marked processed exactly when a
      publication carries its id. */
  lemma ProcessedIdsArePublished(s: Store)
    requires Valid(s)
    ensures PublishedIds(s) == ProcessedIds(s)
  {
    forall id | id in PublishedIds(s)
      ensures id in ProcessedIds(s)
    {
      var i :| 0 <= i < |s.publications| && s.publications[i].emailId == Some(id);
      assert s.markers[i].emailId == Some(id);
    }
    forall id | id in ProcessedIds(s)
      ensures id in PublishedIds(s)
    {
      var i :| 0 <= i < |s.markers| && s.markers[i].emailId == Some(id);
      assert s.publications[i].emailId == Some(id);
    }
  }

  /** In a valid store a processed id is also a publication's id, so a
      duplicate is always caught by the first insert, never the second. */
  lemma MarkerConflictIsPublicationConflict(s: Store, row: PublicationRow)
    requires Valid(s)
    ensures MarkerConflict(s, row.emailId) ==> PublicationConflict(s, row)
  {
    if MarkerConflict(s, row.emailId) {
      var i :| 0 <= i < |s.markers| && SameId(s.markers[i].emailId, row.emailId);
      assert SameId(s.publications[i].emailId, row.emailId);
    }
  }

  /** In a valid store a publication is inserted exactly when nothing fails
      and neither its key nor its non-null id is taken by a stored publication. */
  lemma InsertedIffNew(s: Store, pub: Publication, processedAt: Timestamp, fault: Option<Step>)
    requires Valid(s)
    ensures Insert(s, pub, processedAt, fault).0 == Inserted <==>
              && fault.None?
              && (forall i :: 0 <= i < |s.publications| ==> !SameKey(s.publications[i], RowOf(pub)))
              && (pub.emailId.Some? ==> pub.emailId.value !in PublishedIds(s))
  {
    MarkerConflictIsPublicationConflict(s, RowOf(pub));
    if pub.emailId.Some? && pub.emailId.value in PublishedIds(s) {
      var i :| 0 <= i < |s.publications| && s.publications[i].emailId == pub.emailId;
      assert SameId(s.publications[i].emailId, pub.emailId);
    }
  }

  /** Once a publication is stored, or found to be a duplicate, storing it
      again changes nothing and, when nothing fails, is reported as a duplicate. */
  lemma ReinsertIsNoOp(s: Store, pub: Publication, t1: Timestamp, f1: Option<Step>, t2: Timestamp, f2: Option<Step>)
    requires Insert(s, pub, t1, f1).0 != StorageError
    ensures var s1 := Insert(s, pub, t1, f1).1;
            var r2 := Insert(s1, pub, t2, f2);
            r2.1 == s1 && r2.0 != Inserted && (f2.None? ==> r2.0 == AlreadyExists)
  {
    var (o1, s1) := Insert(s, pub, t1, f1);
    if o1 == Inserted {
      var n := |s.publications|;
      assert s1.publications[n] == RowOf(pub);
      assert PublicationConflict(s1, RowOf(pub));
    }
  }

  /** Publications whose title, joined authors and year agree are
      duplicates, whatever their email ids. */
  lemma SameKeyIsDuplicate(s: Store, a: Publication, b: Publication, t1: Timestamp, t2: Timestamp)
    requires Insert(s, a, t1, None).0 == Inserted
    requires SameKey(RowOf(a), RowOf(b))
    ensures Insert(Insert(s, a, t1, None).1, b, t2, None) == (AlreadyExists, Insert(s, a, t1, None).1)
  {
    var s1 := Insert(s, a, t1, None).1;
    assert s1.publications[|s.publications|] == RowOf(a);
  }

  /** Publications without a Message-ID are told apart by their key alone. */
  lemma NullIdDedupByKeyOnly(s: Store, pub: Publication, t: Timestamp)
    requires pub.emailId.None?
    ensures Insert(s, pub, t, None).0 == Inserted <==>
              forall i :: 0 <= i < |s.publications| ==> !SameKey(s.publications[i], RowOf(pub))
  {
  }

  /** Author lists are compared through their comma-join, so a single name
      holding a comma collides with the two names it joins. */
  lemma JoinedAuthorsCollide(a: Publication, b: Publication)
    requires a.authors == ["x,y"] && b.authors == ["x", "y"]
    requires a.title == b.title && a.year == b.year
    ensures a.authors != b.authors && SameKey(RowOf(a), RowOf(b))
  {
    assert Join(b.authors, ',') == "x" + [','] + Join(["y"], ',');
  }
}

=== FILE: text.dfy ===
/** The Python `str` operations the alert parser relies on: `strip()`,
    `split(',')`, `','.join(...)`, `in` and `split(sep, 1)`. */
module Text {
  import opened Wrappers

  /** Python's `str.isspace()` for one character, which is also what `\s`
      matches in a `str` regular expression: the ASCII controls tab to
      carriage return, the four information separators, space, and the
      Unicode space characters. */
  predicate IsSpace(c: char) {
    || ('\t' <= c <= '\r')
    || ('\U{1c}' <= c <= '\U{1f}')
    || c == ' '
    || c == '\U{85}'
    || c == '\U{a0}'
    || c == '\U{1680}'
    || ('\U{2000}' <= c <= '\U{200a}')
    || c == '\U{2028}'
    || c == '\U{2029}'
    || c == '\U{202f}'
    || c == '\U{205f}'
    || c == '\U{3000}'
  }

  predicate AllSpace(s: string) {
    forall i :: 0 <= i < |s| ==> IsSpace(s[i])
  }

  /** Neither end of `s` is whitespace: what `strip()` leaves behind. */
  predicate Trimmed(s: string) {
    s == [] || (!IsSpace(s[0]) && !IsSpace(s[|s| - 1]))
  }

  /** The length of the run of whitespace that starts `s`. */
  function LeadingSpace(s: string): (n: nat)
    ensures n <= |s| && AllSpace(s[..n])
    ensures n == |s| || !IsSpace(s[n])
  {
    if s == [] || !IsSpace(s[0]) then 0
    else
      var n := LeadingSpace(s[1..]);
      assert s[..n + 1] == [s[0]] + s[1..][..n];
      n + 1
  }

  /** `s.lstrip()`: the suffix left after dropping leading whitespace. */
  function StripLeft(s: string): (r: string)
    ensures |r| <= |s| && r == s[|s| - |r|..]
    ensures AllSpace(s[..|s| - |r|])
    ensures r == [] || !IsSpace(r[0])
  {
    s[LeadingSpace(s)..]
  }

  /** The length of the run of whitespace that ends `s`. */
  function TrailingSpace(s: string): (n: nat)
    ensures n <= |s| && AllSpace(s[|s| - n..])
    ensures n == |s| || !IsSpace(s[|s| - n - 1])
  {
    if s == [] || !IsSpace(s[|s| - 1]) then 0
    else
      var t := s[..|s| - 1];
      var n := TrailingSpace(t);
      assert s[|s| - (n + 1)..] == t[|t| - n..] + [s[|s| - 1]];
      n + 1
  }

  /** `s.rstrip()`: the prefix left after dropping trailing whitespace. */
  function StripRight(s: string): (r: string)
    ensures |r| <= |s| && r == s[..|r|]
    ensures AllSpace(s[|r|..])
    ensures r == [] || !IsSpace(r[|r| - 1])
  {
    s[..|s| - TrailingSpace(s)]
  }

  /** `s.strip()`. Its full characterisation is `StripUnique`. */
  function Strip(s: string): (r: string)
    ensures |r| <= |s|
    ensures Trimmed(r)
    ensures r == [] <==> AllSpace(s)
  {
    var t := StripLeft(s);
    var r := StripRight(t);
    if r == [] then
      assert t[|r|..] == t;
      assert t == [];
      assert s[..|s| - |t|] == s;
      r
    else
      assert r[0] == t[0] == s[|s| - |t|];
      r
  }

  lemma {:induction false} StripLeftOfSpaces(a: string, t: string)
    requires AllSpace(a)
    requires t == [] || !IsSpace(t[0])
    ensures StripLeft(a + t) == t
    decreases |a|
  {
    if a != [] {
      assert (a + t)[1..] == a[1..] + t;
      StripLeftOfSpaces(a[1..], t);
    } else {
      assert a + t == t;
    }
  }

  lemma {:induction false} StripRightOfSpaces(m: string, b: string)
    requires AllSpace(b)
    requires m == [] || !IsSpace(m[|m| - 1])
    ensures StripRight(m + b) == m
    decreases |b|
  {
    if b != [] {
      var b' := b[..|b| - 1];
      assert (m + b)[..|m + b| - 1] == m + b';
      StripRightOfSpaces(m, b');
    } else {
      assert m + b == m;
    }
  }

  /** `strip()` is characterised by its result alone: whatever trimmed middle
      is surrounded by whitespace on both sides is exactly what it returns. */
  lemma StripUnique(a: string, m: string, b: string)
    requires AllSpace(a) && AllSpace(b) && Trimmed(m)
    ensures Strip(a + m + b) == m
  {
    if m == [] {
      assert a + m + b == a + b;
      StripLeftOfSpaces(a + b, []);
      assert a + b + [] == a + b;
    } else {
      assert a + m + b == a + (m + b);
      StripLeftOfSpaces(a, m + b);
      StripRightOfSpaces(m, b);
    }
  }

  /** Stripping twice is stripping once. */
  lemma StripIdempotent(s: string)
    ensures Strip(Strip(s)) == Strip(s)
  {
    var m := Strip(s);
    assert [] + m + [] == m;
    StripUnique([], m, []);
  }

  /** `strip()` only removes characters: one absent from `s` is absent from the result. */
  lemma StripKeepsAbsent(s: string, c: char)
    requires c !in s
    ensures c !in Strip(s)
  {
    var t := StripLeft(s);
    var r := StripRight(t);
    assert forall i :: 0 <= i < |r| ==> r[i] == s[|s| - |t| + i];
  }

  /** Number of occurrences of `c` in `s`. */
  function Count(s: string, c: char): nat {
    if s == [] then 0 else (if s[0] == c then 1 else 0) + Count(s[1..], c)
  }

  /** `sep.join(xs)` for a one-character separator. */
  function Join(xs: seq<string>, sep: char): string {
    if |xs| == 0 then []
    else if |xs| == 1 then xs[0]
    else xs[0] + [sep] + Join(xs[1..], sep)
  }

  lemma JoinPrefixHead(c: char, x: string, ys: seq<string>, sep: char)
    ensures Join([[c] + x] + ys, sep) == [c] + Join([x] + ys, sep)
  {
    if |ys| > 0 {
      assert ([[c] + x] + ys)[1..] == ys;
      assert ([x] + ys)[1..] == ys;
    }
  }

  /** `s.split(sep)` for a one-character separator: the pieces between
      separators, in order, one more piece than there are separators. */
  function Split(s: string, sep: char): (r: seq<string>)
    ensures |r| == Count(s, sep) + 1
    ensures forall i :: 0 <= i < |r| ==> sep !in r[i]
    ensures Join(r, sep) == s
  {
    if s == [] then [[]]
    else
      var rest := Split(s[1..], sep);
      if s[0] == sep then
        assert ([[]] + rest)[1..] == rest;
        [[]] + rest
      else
        var r := [[s[0]] + rest[0]] + rest[1..];
        assert [rest[0]] + rest[1..] == rest;
        JoinPrefixHead(s[0], rest[0], rest[1..], sep);
        assert s == [s[0]] + s[1..];
        r
  }

  lemma {:induction false} SplitNoSeparator(x: string, sep: char)
    requires sep !in x
    ensures Split(x, sep) == [x]
    decreases |x|
  {
    if x != [] {
      SplitNoSeparator(x[1..], sep);
      assert [x[0]] + x[1..] == x;
    }
  }

  lemma {:induction false} SplitAfterPiece(x: string, t: string, sep: char)
    requires sep !in x
    ensures Split(x + [sep] + t, sep) == [x] + Split(t, sep)
    decreases |x|
  {
    var s := x + [sep] + t;
    if x == [] {
      assert s[1..] == t;
    } else {
      assert s[1..] == x[1..] + [sep] + t;
      SplitAfterPiece(x[1..], t, sep);
      assert [x[0]] + x[1..] == x;
    }
  }

  /** Splitting undoes joining, provided no piece contains the separator. */
  lemma {:induction false} SplitJoin(xs: seq<string>, sep: char)
    requires |xs| >= 1
    requires forall i :: 0 <= i < |xs| ==> sep !in xs[i]
    ensures Split(Join(xs, sep), sep) == xs
    decreases |xs|
  {
    if |xs| == 1 {
      SplitNoSeparator(xs[0], sep);
    } else {
      SplitJoin(xs[1..], sep);
      SplitAfterPiece(xs[0], Join(xs[1..], sep), sep);
      assert [xs[0]] + xs[1..] == xs;
    }
  }

  /** `pat` occurs in `s` starting at index `i`. */
  predicate OccursAt(s: string, pat: string, i: int) {
    0 <= i && i + |pat| <= |s| && s[i..i + |pat|] == pat
  }

  /** The first index at or after `from` where `pat` occurs. */
  function FindFrom(s: string, pat: string, from: nat): (r: Option<nat>)
    requires from <= |s|
    ensures r.Some? ==> from <= r.value && OccursAt(s, pat, r.value)
    ensures r.Some? ==> forall j :: from <= j < r.value ==> !OccursAt(s, pat, j)
    ensures r.None? ==> forall j :: from <= j ==> !OccursAt(s, pat, j)
    decreases |s| - from
  {
    if OccursAt(s, pat, from) then Some(from)
    else if from == |s| then None
    else FindFrom(s, pat, from + 1)
  }

  /** `s.find(pat)`, as an option: the first occurrence. */
  function IndexOf(s: string, pat: string): (r: Option<nat>)
    ensures r.Some? ==> OccursAt(s, pat, r.value)
    ensures r.Some? ==> forall j :: 0 <= j < r.value ==> !OccursAt(s, pat, j)
    ensures r.None? <==> forall j :: !OccursAt(s, pat, j)
  {
    FindFrom(s, pat, 0)
  }

  /** Python's `pat in s`. */
  predicate Contains(s: string, pat: string) {
    IndexOf(s, pat).Some?
  }

  /** `s.split(sep, 1)` when `sep in s`: the text before the first
      occurrence of `sep` and everything after it, later occurrences
      included. `None` when `sep` does not occur. */
  function SplitOnce(s: string, sep: string): (r: Option<(string, string)>)
    ensures r.None? <==> forall j :: !OccursAt(s, sep, j)
    ensures r.Some? ==> s == r.value.0 + sep + r.value.1
    ensures r.Some? ==> forall j :: 0 <= j < |r.value.0| ==> !OccursAt(s, sep, j)
  {
    match IndexOf(s, sep)
    case None => None
    case Some(i) =>
      assert s == s[..i] + s[i..i + |sep|] + s[i + |sep|..];
      Some((s[..i], s[i + |sep|..]))
  }

  /** `s` is `a`, then `sep`, then `t`, and `sep` occurs nowhere inside `a`:
      `a` and `t` are what `s.split(sep, 1)` returns. */
  predicate SplitsAt(s: string, sep: string, a: string, t: string) {
    s == a + sep + t && forall j :: 0 <= j < |a| ==> !OccursAt(s, sep, j)
  }

  /** Every split at a first occurrence is the one `SplitOnce` finds. */
  lemma SplitOnceFindsSplit(s: string, sep: string)
    ensures forall a, t :: SplitsAt(s, sep, a, t) ==> SplitOnce(s, sep) == Some((a, t))
  {
    forall a, t | SplitsAt(s, sep, a, t)
      ensures SplitOnce(s, sep) == Some((a, t))
    {
      assert s[..|a|] == a && s[|a|..|a| + |sep|] == sep && s[|a| + |sep|..] == t;
      SplitOnceAt(s, sep, |a|);
    }
  }

  /** `SplitOnce` splits at the first occurrence. */
  lemma SplitOnceAt(s: string, sep: string, i: int)
    requires OccursAt(s, sep, i)
    requires forall j :: 0 <= j < i ==> !OccursAt(s, sep, j)
    ensures SplitOnce(s, sep) == Some((s[..i], s[i + |sep|..]))
  {
    var r := IndexOf(s, sep);
    assert r == Some(i);
  }
}

=== FILE: wrappers.dfy ===
/** Option and Result, the failure-carrying values used in place of Python's
    `None` returns and caught exceptions. */
module Wrappers {

  /** A value that may be absent: Python's `Optional[T]`, or a nullable column. */
  datatype Option<+T> = None | Some(value: T)

  /** The outcome of an operation that either produces a value or a reason for failing. */
  datatype Result<+R, +E> = Success(value: R) | Failure(error: E)
}
